=== FILE: README.md ===
# distfiles-api upload handler, modelled in Dafny

This project models the `upload` handler of the distfiles service
(`distfiles_api.py`): a `POST /` that takes a multipart upload, checks the
`Authorization` header's user name against the configured `AUTH_TOKEN`, requires a `file`
part and the `project` and `sha512` form fields, recognises the `sha512`
value as a checksum line (`<128 lower-case hex digits> <flag><name>`),
checks the uploaded file name, compares the claimed digest with the
payload's SHA-512, and then stores the payload as
`DISTFILES_BASEDIR/project/filename` with the verbatim checksum line beside
it in `filename.sha512`, answering `OK\n`.

The handler is one pure function, `DistfilesApi.Upload`, from a
configuration, a digest function, a request and a filesystem to a response
and the filesystem afterwards. It is split as the source is:

- `checksum_line.dfy` — the pattern `([0-9a-f]{128}) (\*| )(.+)` under
  `re.match` (anchored at the start only, `.` stopping at a newline),
  hand-coded as `ChecksumLine.Parse`, with a declarative acceptance
  predicate and the inverse `Format`.
- `paths.dfy` — `os.path.join` on path text, and the resolution of path
  text into entry names (the non-empty pieces between slashes).
- `filesystem.dfy` — a filesystem as a map from resolved paths to
  directories and files; `os.path.isdir`, `os.mkdir`, `os.makedirs` and
  `open(path, 'w')`, with the `OSError`s they raise.
- `distfiles_api.dfy` — the request, configuration and response types, the
  ordered guards (`Validate`), the destination layout, the commit and
  `Upload`.
- `upload_properties.dfy` — properties of the whole handler: no effect on
  rejection, what a success stores, what it may change, idempotence,
  well-formedness, when a commit succeeds, and the guard-order corollaries.

SHA-512 is the parameter `sha: Hasher`, a total function from bytes to a
128-character lower-case hex string; nothing is assumed about it beyond
that. The HTTP framework is reduced to the `Request` record (decoded
credentials, file parts by field name, form fields by field name) and the
`Response` datatype. A rejection carries an internal `Reason` tag; the
source itself answers only with the bare status (`abort(401)` or
`abort(400)`), which `StatusCode` gives. A raised `OSError` becomes
`ServerError`, status 500, with the filesystem as the failing call left it.

The model follows this revision of `distfiles_api.py`: a module-level
Flask application with one `AUTH_TOKEN`, no `version` field, and the files
stored directly under `project/`. A later revision of the service, which
`tests/test_api.py` exercises through a `create_app` factory, also requires
a `version` field, stores into `project/project-version/`, keeps a `LATEST`
symlink, checks that the name in the checksum line equals the uploaded file
name, can extract an uploaded archive (`extract`) and answers with reason
codes in the body. None of this is in the
modelled code, so none of it is modelled: here `version` is ignored, the
token is a single string, and the name captured from the checksum line is
parsed but never used. The tests agree with this code only at the level of
status codes for missing/wrong credentials, missing file, missing fields,
a malformed `sha512`, a wrong digest and a repeated upload.

## Model

| member | source | states |
|---|---|---|
| ChecksumLine.NameEnd | distfiles_api.py:16 | the greedy `(.+)` stops at the first newline at or after its start, or at the end of the value; every character before it is not a newline |
| ChecksumLine.Parse | distfiles_api.py:16 | `re_sha512.match` succeeds exactly on values with 128 lower-case hex digits, a space, `*` or space, and a non-newline character; the digest group is the first 128 characters, the mode is the flag, the name is non-empty, newline-free and runs to the first newline or the end |
| ChecksumLine.ParseFormat | distfiles_api.py:16 | a checksum line built from a hex digest, a flag and a newline-free non-empty name is recognised with exactly those three groups |
| ChecksumLine.FormatParse | distfiles_api.py:16 | an accepted value begins with the formatted line of its captured groups, followed by nothing or by a newline |
| ChecksumLine.NewlineEndsLine | distfiles_api.py:31-33 | since the match is anchored only at the start and `.` excludes newlines, anything from the first newline on does not change the result |
| Paths.JoinName | distfiles_api.py:51 | `os.path.join(destdir, filename)` with a separator-free name resolves to the entry of that name directly inside `destdir` |
| Paths.JoinNameWithSuffix | distfiles_api.py:51-52 | appending `.sha512` to the joined payload path text resolves to the sibling entry `filename.sha512` inside `destdir` |
| Paths.JoinEmpty | distfiles_api.py:49-50 | `os.path.join` gives the empty path text exactly when both arguments are empty |
| Paths.JoinRelative | distfiles_api.py:49-50 | joining a relative project onto the base directory resolves below the base directory |
| Filesystem.MakeDirs | distfiles_api.py:54-55 | `os.makedirs` never alters an existing entry, only adds directories on the way to the target, and on success the target is a directory |
| Filesystem.OpenWrite | distfiles_api.py:57-61 | `open(path, 'w')` and a write succeed exactly when the path is not a directory and its parent is; the entry then holds exactly the written content and nothing else changes; on failure nothing changes |
| Filesystem.MakeDirsWellFormed | distfiles_api.py:54-55 | on a well-formed filesystem `os.makedirs` keeps it well-formed and changes nothing when it raises |
| Filesystem.MakeDirsSucceeds | distfiles_api.py:54-55 | on a well-formed filesystem `os.makedirs` succeeds exactly when the target does not exist and no ancestor of it is a file |
| DistfilesApi.Validate | distfiles_api.py:21-47 | a request is refused for the first guard (auth header, user name, file part, form fields, checksum line, name length, separators, digest) whose condition fails, every earlier one holding; it is accepted exactly when all hold, and then the plan is the request's project, file name, data and `sha512` value, with a name of at least four characters free of `/` and `\` |
| DistfilesApi.PlanLayout | distfiles_api.py:49-52 | the path texts `os.path.join(destdir, filename)` and that text plus `.sha512` resolve to the entries named by the file name and by the file name with `.sha512` directly inside `destdir`, two different entries; `destdir` is the project below the base directory, or the project alone when it is absolute |
| DistfilesApi.EnsureDir | distfiles_api.py:54-55 | an existing directory `destdir` is left as it is; otherwise every existing entry keeps its contents, only directories on the way to `destdir` are added, and success leaves `destdir` a directory |
| DistfilesApi.Commit | distfiles_api.py:54-63 | a commit never answers with a rejection; when it answers `OK\n`, `destdir` is a directory, the payload file holds exactly the uploaded bytes and the sidecar holds the checksum line, although the sidecar was written first |
| DistfilesApi.Upload | distfiles_api.py:19-63 | the handler rejects exactly the requests validation refuses, with that guard's reason and the filesystem unchanged; an `OK` answer implies a non-empty destination path text |
| UploadProperties.CommitFrame | distfiles_api.py:54-61 | whatever a commit ends in, entries other than the payload and sidecar keep their contents, and every added entry is one of those two files or a directory on the way to `destdir` |
| UploadProperties.RejectionHasNoEffect | distfiles_api.py:21-47 | a request is rejected exactly when validation fails, with status 400 or 401 and the failing guard's reason, and a rejected request leaves the filesystem unchanged |
| UploadProperties.SuccessStoresRequest | distfiles_api.py:49-63 | after a successful upload the path text `os.path.join(os.path.join(basedir, project), filename)` names a file holding exactly the uploaded bytes, that text plus `.sha512` names a file holding the whole `sha512` value verbatim, both are immediate children of `destdir`, which is a directory, and the answer is 200 `OK\n` |
| UploadProperties.SuccessChangesOnlyDestination | distfiles_api.py:49-61 | a successful upload changes nothing but the payload file, the sidecar and the directories it adds on the way to `destdir` |
| UploadProperties.CommitOntoStored | distfiles_api.py:54-61 | a commit onto a filesystem where `destdir` is a directory and both files already hold what would be written answers `OK` and changes nothing |
| UploadProperties.CommitIdempotent | distfiles_api.py:54-61 | committing the same files onto the result of a successful commit gives the same response and filesystem |
| UploadProperties.UploadIdempotent | distfiles_api.py:54-61 | sending an accepted request a second time succeeds again and leaves the filesystem exactly as after the first time |
| UploadProperties.UploadPreservesWellFormed | distfiles_api.py:49-61 | whatever the handler answers, a well-formed filesystem stays well-formed |
| UploadProperties.CommitSucceeds | distfiles_api.py:54-61 | on a well-formed filesystem a commit succeeds exactly when no ancestor of `destdir` is a file and neither the payload nor the sidecar path is a directory |
| UploadProperties.EmptyDestinationFails | distfiles_api.py:49-55 | the destination path text is empty exactly when base directory and project are both empty, and then an accepted request ends in a server error with the filesystem unchanged, as `os.makedirs('')` raises |
| UploadProperties.UploadSucceeds | distfiles_api.py:49-61 | on a well-formed filesystem an accepted request is stored exactly when its destination path text is non-empty, no ancestor of its `destdir` is a file and neither file path is a directory; otherwise the answer is a server error |
| UploadProperties.PasswordIgnored | distfiles_api.py:21-24 | changing the password of the credentials never changes the outcome |
| UploadProperties.CredentialsChecked | distfiles_api.py:21-24 | a missing Authorization header or a user name other than the token is answered 401 with the filesystem unchanged |
| UploadProperties.FileCheckedBeforeForm | distfiles_api.py:26-29 | an authenticated request without a `file` part is refused for that whatever its form fields |
| UploadProperties.VersionNotRequired | distfiles_api.py:28-29 | removing a `version` field never changes the outcome |
| UploadProperties.MalformedChecksumRejected | distfiles_api.py:31-33 | a `sha512` value of at most 130 characters (such as `123`) or one with an upper-case hex digit in the digest is refused with 400 |
| UploadProperties.ShortNameRejectedForLength | distfiles_api.py:37-40 | a file name under four characters is refused for its length, even when it also contains a separator |
| UploadProperties.DigestDecides | distfiles_api.py:44-47 | once all other guards pass, the request is refused exactly when the captured digest differs from the payload's digest, and then with the digest reason and no change |
| UploadProperties.EveryPayloadAccepted | distfiles_api.py:21-47 | any payload, sent with the token, an acceptable name and the checksum line of its own digest (either flag, any name in the line), passes validation with that plan |

## Left out

- Flask application setup, loading `DISTFILES_CONFIG`, routing and the `abort`/response machinery (distfiles_api.py:8-14): replaced by the `Config` record, the `Request` record and the `Response` datatype. The built-in defaults (token `bola`, base directory the working directory) are not singled out: the token and the base directory are parameters.
- The SHA-512 algorithm: a parameter whose only property is that it returns 128 lower-case hex digits.
- Reading the request body and decoding the `Authorization` header: the request arrives decoded. The `authorization` field stands for whatever `request.authorization` yields: a Basic header gives `Some(Credentials(username, password))`, a Digest header gives `Some(Credentials(username, _))` with its user name, and only the user name is ever compared, so a Digest header carrying the token's user name is accepted without its response being checked (distfiles_api.py:21-24). A header that parses as neither is `None`.
- Path resolution: `.` and `..` are treated as ordinary entry names and symbolic links do not exist; a relative base directory is resolved as if the working directory were the root. The empty path text is the exception, as in the source: it names no entry, so an empty base directory with an empty project makes `os.makedirs('')` fail. Absolute projects replacing the base directory are modelled.
- Permission errors, a full disk and other environment failures of `os.makedirs` and `open`: only the errors that follow from the filesystem's shape (an existing entry, a missing or non-directory parent, a directory where a file is written) are modelled.
- Filesystem.OpenWrite: treats `open(path, 'w')` and the following write as one step that either completes or changes nothing. In the source `open` creates or truncates the file first, so a write that then raises leaves an empty sidecar behind and the payload is never written. The one such raise a request can provoke is an encoding error: under Python 2, writing a `sha512` value with non-ASCII characters (such as `<digest>  café`) raises `UnicodeEncodeError` at distfiles_api.py:58, and the program answers 500 where the model answers OK.
- Filesystem.MakeDirs: a NUL character in a path text makes the path calls at distfiles_api.py:54-60 raise (`TypeError` under Python 2, `ValueError` under Python 3), and with no handler around them the program answers 500. The model treats NUL as an ordinary character and creates the entry.
- UploadProperties.UploadSucceeds: because of the two lines above, its promise of OK under the shape conditions, and with it SuccessStoresRequest's, does not hold for a `project` or file name containing NUL or a `sha512` value containing non-ASCII characters; the program answers 500 for those, leaving a truncated sidecar in the encoding case.
- UploadProperties.SuccessStoresRequest: describes the model's OK, which, unlike the program's, is also given for a NUL in `project` or the file name and for a non-ASCII `sha512` value (see the lines above).
- Text encoding: the sidecar stores the `sha512` value as characters; the encoding Python applies when writing it is not modelled beyond the raise noted under Filesystem.OpenWrite. The payload, which the source writes through a text-mode handle, is stored as its bytes.
- Concurrency: no two requests interleave; each call sees the filesystem the previous one left.
- The later revision's `version` directories, `LATEST` symlink, name cross-check, archive extraction and reason-code bodies, and its health endpoint: not part of the modelled code.

=== FILE: basics.dfy ===
/** Shared value types: bytes and an optional value. */
module Basics {

  /** One octet of an uploaded payload. */
  newtype byte = x: int | 0 <= x < 256

  type Bytes = seq<byte>

  datatype Option<+T> = None | Some(value: T)

  datatype Result<+T, +E> = Success(value: T) | Failure(error: E)
}

=== FILE: checksum_line.dfy ===
/**
 * The checksum-line recogniser of the upload handler: the pattern
 * `([0-9a-f]{128}) (\*| )(.+)` applied with Python's `re.match`, which
 * anchors at the start of the value but not at its end, and whose `.`
 * matches every character except a newline.
 */
module ChecksumLine {
  import opened Basics

  /** Length of a hex-encoded SHA-512 digest. */
  const DigestLength: nat := 128

  predicate IsLowerHexDigit(c: char) {
    '0' <= c <= '9' || 'a' <= c <= 'f'
  }

  predicate IsHexDigest(s: string) {
    |s| == DigestLength && forall i :: 0 <= i < |s| ==> IsLowerHexDigit(s[i])
  }

  /** What `hexdigest()` of SHA-512 produces: 128 lower-case hex digits. */
  type Digest = s: string | IsHexDigest(s) witness seq(128, _ => '0')

  /** Group 2 of the pattern: `*` (binary) or a space (text). */
  predicate IsModeFlag(c: char) {
    c == '*' || c == ' '
  }

  /** The three groups captured by a successful match. */
  datatype Match = Match(digest: string, mode: char, name: string)

  /**
   * Declarative acceptance condition: 128 lower-case hex digits, a space,
   * a mode flag, then at least one character that is not a newline.
   * Whatever follows is irrelevant, since the match is not anchored at the end.
   */
  predicate IsChecksumLine(s: string) {
    && |s| > DigestLength + 2
    && IsHexDigest(s[..DigestLength])
    && s[DigestLength] == ' '
    && IsModeFlag(s[DigestLength + 1])
    && s[DigestLength + 2] != '\n'
  }

  /**
   * End of the greedy `.+` that starts at `i`: the index of the first newline
   * at or after `i`, or the end of the value when there is none.
   */
  function NameEnd(s: string, i: nat): (e: nat)
    requires i <= |s|
    ensures i <= e <= |s|
    ensures forall j :: i <= j < e ==> s[j] != '\n'
    ensures e < |s| ==> s[e] == '\n'
    decreases |s| - i
  {
    if i == |s| || s[i] == '\n' then i else NameEnd(s, i + 1)
  }

  /** `re_sha512.match(s)`: the captured groups, or None when the match fails. */
  function Parse(s: string): (r: Option<Match>)
    ensures r.Some? <==> IsChecksumLine(s)
    ensures r.Some? ==>
              && r.value.digest == s[..DigestLength]
              && IsHexDigest(r.value.digest)
              && r.value.mode == s[DigestLength + 1]
              && |r.value.name| > 0
              && '\n' !in r.value.name
              && s[..DigestLength + 2] + r.value.name <= s
              && (|s| == DigestLength + 2 + |r.value.name|
                  || s[DigestLength + 2 + |r.value.name|] == '\n')
  {
    if |s| < DigestLength then None
    else if !IsHexDigest(s[..DigestLength]) then None
    else if |s| == DigestLength || s[DigestLength] != ' ' then None
    else if |s| == DigestLength + 1 || !IsModeFlag(s[DigestLength + 1]) then None
    else
      var e := NameEnd(s, DigestLength + 2);
      if e == DigestLength + 2 then None
      else
        var m := Match(s[..DigestLength], s[DigestLength + 1], s[DigestLength + 2..e]);
        assert s[..DigestLength + 2] + m.name == s[..e];
        assert m.name[0] == s[DigestLength + 2];
        Some(m)
  }

  /** The line a checksum utility prints for a digest, a mode flag and a name. */
  function Format(m: Match): string {
    m.digest + [' ', m.mode] + m.name
  }

  /** A match whose groups could have come from a checksum line. */
  predicate WellFormedMatch(m: Match) {
    IsHexDigest(m.digest) && IsModeFlag(m.mode) && |m.name| > 0 && '\n' !in m.name
  }

  /**
   * The captured name is exactly the newline-free run that starts after the
   * mode flag: it stops at the first newline or at the end of the value.
   */
  lemma NameIsRun(s: string, k: nat)
    requires IsChecksumLine(s)
    requires DigestLength + 2 < k <= |s|
    requires forall j :: DigestLength + 2 <= j < k ==> s[j] != '\n'
    requires k == |s| || s[k] == '\n'
    ensures Parse(s).value.name == s[DigestLength + 2..k]
  {
    var name := Parse(s).value.name;
    var n := DigestLength + 2 + |name|;
    assert name == s[DigestLength + 2..n];
  }

  /** Recognising a formatted line gives back exactly the groups it was built from. */
  lemma ParseFormat(m: Match)
    requires WellFormedMatch(m)
    ensures Parse(Format(m)) == Some(m)
  {
    var s := Format(m);
    assert s[..DigestLength] == m.digest;
    assert s[DigestLength + 2..] == m.name;
    assert IsChecksumLine(s) by {
      assert s[DigestLength + 2] == m.name[0];
    }
    forall j | DigestLength + 2 <= j < |s|
      ensures s[j] != '\n'
    {
      assert s[j] == m.name[j - (DigestLength + 2)];
    }
    NameIsRun(s, |s|);
    var r := Parse(s).value;
    assert r.digest == m.digest;
    assert r.mode == m.mode by {
      assert s[DigestLength + 1] == m.mode;
    }
    assert r.name == m.name;
  }

  /**
   * Conversely, an accepted value starts with the formatted line of its
   * groups and continues, if at all, with a newline.
   */
  lemma FormatParse(s: string)
    requires Parse(s).Some?
    ensures WellFormedMatch(Parse(s).value)
    ensures Format(Parse(s).value) <= s
    ensures |Format(Parse(s).value)| == |s| || s[|Format(Parse(s).value)|] == '\n'
  {
    var m := Parse(s).value;
    assert s[..DigestLength + 2] == m.digest + [' ', m.mode];
  }

  /** Everything from the first newline on is ignored by the recogniser. */
  lemma {:induction false} NewlineEndsLine(s: string, rest: string)
    requires '\n' !in s
    ensures Parse(s + "\n" + rest) == Parse(s)
  {
    var t := s + "\n" + rest;
    assert forall i :: 0 <= i < |s| ==> t[i] == s[i];
    if |s| >= DigestLength {
      assert t[..DigestLength] == s[..DigestLength];
    }
    if IsChecksumLine(s) {
      assert IsChecksumLine(t);
      NameIsRun(s, |s|);
      NameIsRun(t, |s|);
      assert t[DigestLength + 2..|s|] == s[DigestLength + 2..];
      var ms, mt := Parse(s).value, Parse(t).value;
      assert mt.digest == ms.digest;
      assert mt.mode == ms.mode;
      assert mt.name == ms.name;
    } else if |t| <= DigestLength + 2 {
    } else if |s| < DigestLength {
      assert t[..DigestLength][|s|] == '\n';
    } else if |s| <= DigestLength + 2 {
      assert t[|s|] == '\n';
    } else {
      assert t[..DigestLength] == s[..DigestLength];
    }
  }
}

=== FILE: distfiles_api.dfy ===
/**
 * The `upload` handler of the distfiles service as one pure function: a
 * request, the configuration and the filesystem go in; a response and the
 * filesystem after it come out. Validation runs first and touches nothing;
 * only an accepted upload reaches the filesystem.
 */
module DistfilesApi {
  import opened Basics
  import opened ChecksumLine
  import opened Paths
  import opened Filesystem

  /** `AUTH_TOKEN` and `DISTFILES_BASEDIR`. */
  datatype Config = Config(authToken: string, basedir: string)

  /**
   * What `request.authorization` yields for the `Authorization` header: a
   * Basic header gives its user name and password, a Digest header its user
   * name (the password is then irrelevant), anything else nothing.
   */
  datatype Credentials = Credentials(username: string, password: string)

  /** An uploaded multipart file: its reported file name and its contents. */
  datatype FilePart = FilePart(filename: string, data: Bytes)

  /** The parts of a request the handler looks at; files and form fields are keyed by field name. */
  datatype Request = Request(
    authorization: Option<Credentials>,
    files: map<string, FilePart>,
    form: map<string, string>)

  /** SHA-512 followed by `hexdigest()`; the algorithm itself is not modelled. */
  type Hasher = Bytes -> Digest

  /** Why a request is turned away, one tag per guard of the handler, in the order they run. */
  datatype Reason =
    | NoAuth                // no Authorization header
    | BadAuth               // user name is not the configured token
    | NoFile                // no `file` part
    | BadForm               // `project` or `sha512` missing
    | BadChecksumLine       // `sha512` does not match the checksum-line pattern
    | FilenameTooShort      // fewer than four characters
    | FilenameHasSeparator  // contains `/` or `\`
    | DigestMismatch        // claimed digest differs from the payload's

  /** Position of a guard in the handler. */
  function Rank(reason: Reason): nat {
    match reason
    case NoAuth => 0
    case BadAuth => 1
    case NoFile => 2
    case BadForm => 3
    case BadChecksumLine => 4
    case FilenameTooShort => 5
    case FilenameHasSeparator => 6
    case DigestMismatch => 7
  }

  /** HTTP status of a rejection: `abort(401)` for the credential guards, `abort(400)` for the rest. */
  function RejectionStatus(reason: Reason): nat {
    if reason == NoAuth || reason == BadAuth then 401 else 400
  }

  const MinFilenameLength: nat := 4

  predicate HasSeparator(name: string) {
    '/' in name || '\\' in name
  }

  /**
   * The condition each guard insists on, stated on its own. A guard that
   * needs a part an earlier guard demands holds vacuously when it is absent.
   */
  predicate Passes(reason: Reason, cfg: Config, sha: Hasher, req: Request) {
    match reason
    case NoAuth => req.authorization.Some?
    case BadAuth => req.authorization.Some? ==> req.authorization.value.username == cfg.authToken
    case NoFile => "file" in req.files
    case BadForm => "project" in req.form && "sha512" in req.form
    case BadChecksumLine => "sha512" in req.form ==> IsChecksumLine(req.form["sha512"])
    case FilenameTooShort => "file" in req.files ==> |req.files["file"].filename| >= MinFilenameLength
    case FilenameHasSeparator => "file" in req.files ==> !HasSeparator(req.files["file"].filename)
    case DigestMismatch =>
      ("file" in req.files && "sha512" in req.form && IsChecksumLine(req.form["sha512"])) ==>
        req.form["sha512"][..DigestLength] == sha(req.files["file"].data)
  }

  /** What an accepted request asks to be stored, and where. */
  datatype Plan = Plan(project: string, filename: string, data: Bytes, checksumLine: string)

  /** A file name the handler accepts. */
  predicate IsUploadName(name: string) {
    |name| >= MinFilenameLength && !HasSeparator(name)
  }

  /**
   * distfiles_api.py:21-47: the guards in order, the first failure
   * ending the request. The result is the first guard that fails, or, when
   * all pass, the upload taken verbatim from the request.
   */
  function Validate(cfg: Config, sha: Hasher, req: Request): (r: Result<Plan, Reason>)
    ensures r.Failure? ==>
              && !Passes(r.error, cfg, sha, req)
              && forall earlier: Reason :: Rank(earlier) < Rank(r.error) ==> Passes(earlier, cfg, sha, req)
    ensures r.Success? <==> forall reason: Reason :: Passes(reason, cfg, sha, req)
    ensures r.Success? ==>
              && "file" in req.files && "project" in req.form && "sha512" in req.form
              && r.value == Plan(req.form["project"], req.files["file"].filename,
                                 req.files["file"].data, req.form["sha512"])
              && IsUploadName(r.value.filename)
  {
    if req.authorization.None? then Failure(NoAuth)
    else if req.authorization.value.username != cfg.authToken then Failure(BadAuth)
    else if "file" !in req.files then Failure(NoFile)
    else if "project" !in req.form || "sha512" !in req.form then Failure(BadForm)
    else match Parse(req.form["sha512"])
      case None => Failure(BadChecksumLine)
      case Some(m) =>
        var f := req.files["file"];
        if |f.filename| < MinFilenameLength then Failure(FilenameTooShort)
        else if HasSeparator(f.filename) then Failure(FilenameHasSeparator)
        else if m.digest != sha(f.data) then Failure(DigestMismatch)
        else Success(Plan(req.form["project"], f.filename, f.data, req.form["sha512"]))
  }

  /** Suffix of the sidecar file that keeps the checksum line. */
  const ChecksumSuffix: string := ".sha512"

  /** Where a commit writes: a directory and the names of the payload and sidecar files inside it. */
  datatype Layout = Layout(destdir: Path, payloadName: string, sidecarName: string) {
    function Dest(): Path {
      destdir + [payloadName]
    }

    function Sidecar(): Path {
      destdir + [sidecarName]
    }
  }

  /** The directory text `os.path.join(DISTFILES_BASEDIR, project)`. */
  function DestDirText(cfg: Config, project: string): string {
    Join(cfg.basedir, project)
  }

  /**
   * distfiles_api.py:49-52: `destdir` joins the project onto the base
   * directory, `dest` joins the file name onto `destdir`, and the sidecar is
   * `dest` with `.sha512` appended as text. Because the name has no
   * separator, both path texts resolve to immediate children of `destdir`,
   * and they are different entries.
   */
  function PlanLayout(cfg: Config, plan: Plan): (l: Layout)
    requires IsName(plan.filename)
    ensures l.Dest() == Segments(Join(DestDirText(cfg, plan.project), plan.filename))
    ensures l.Sidecar() == Segments(Join(DestDirText(cfg, plan.project), plan.filename) + ChecksumSuffix)
    ensures l.payloadName == plan.filename && l.payloadName != l.sidecarName
    ensures l.destdir == if |plan.project| > 0 && plan.project[0] == Separator
                         then Segments(plan.project)
                         else Segments(cfg.basedir) + Segments(plan.project)
  {
    var destdir := DestDirText(cfg, plan.project);
    JoinName(destdir, plan.filename);
    JoinNameWithSuffix(destdir, plan.filename, ChecksumSuffix);
    assert !(|plan.project| > 0 && plan.project[0] == Separator) ==>
             Segments(destdir) == Segments(cfg.basedir) + Segments(plan.project) by {
      if !(|plan.project| > 0 && plan.project[0] == Separator) {
        JoinRelative(cfg.basedir, plan.project);
      }
    }
    assert |plan.filename + ChecksumSuffix| != |plan.filename|;
    Layout(Segments(destdir), plan.filename, plan.filename + ChecksumSuffix)
  }

  /** What the handler answers. A raised `OSError` becomes the framework's server error. */
  datatype Response = Rejected(reason: Reason) | Ok(body: string) | ServerError(error: FsError)

  function StatusCode(resp: Response): nat {
    match resp
    case Rejected(reason) => RejectionStatus(reason)
    case Ok(_) => 200
    case ServerError(_) => 500
  }

  /** The response together with the filesystem it leaves behind. */
  datatype Outcome = Outcome(response: Response, fs: Fs)

  const OkBody: string := "OK\n"

  /**
   * distfiles_api.py:54-55: `os.makedirs(destdir)` unless `os.path.isdir(destdir)`.
   * An existing directory is never touched; otherwise only the missing
   * directories on the way to `destdir` are added.
   */
  function EnsureDir(fs: Fs, destdir: Path): (r: Attempt)
    ensures IsDir(fs, destdir) ==> r == Done(fs)
    ensures forall q :: q in fs ==> q in r.fs && r.fs[q] == fs[q]
    ensures forall q :: q in r.fs && q !in fs ==> r.fs[q] == Dir && IsPrefixPath(q, destdir)
    ensures r.Done? ==> IsDir(r.fs, destdir)
  {
    if IsDir(fs, destdir) then Done(fs) else MakeDirs(fs, destdir)
  }

  /**
   * distfiles_api.py:54-63: create `destdir` unless it is already a
   * directory, write the checksum line to the sidecar, then the payload, and
   * answer `OK`. Any failing call ends the request with the filesystem as
   * that call left it. A commit never answers with a rejection, and when it
   * answers `OK` both files hold what was written, even though the sidecar
   * was written first.
   */
  function Commit(l: Layout, checksumLine: string, data: Bytes, fs: Fs): (o: Outcome)
    requires l.payloadName != l.sidecarName
    ensures !o.response.Rejected?
    ensures o.response.Ok? ==>
              && o.response.body == OkBody
              && IsDir(o.fs, l.destdir)
              && l.Dest() in o.fs && o.fs[l.Dest()] == DataFile(data)
              && l.Sidecar() in o.fs && o.fs[l.Sidecar()] == TextFile(checksumLine)
  {
    match EnsureDir(fs, l.destdir)
    case Failed(e, fs1) => Outcome(ServerError(e), fs1)
    case Done(fs1) =>
      assert l.Sidecar()[..|l.Sidecar()| - 1] == l.destdir;
      match OpenWrite(fs1, l.Sidecar(), TextFile(checksumLine))
      case Failed(e, fs2) => Outcome(ServerError(e), fs2)
      case Done(fs2) =>
        assert l.Dest()[..|l.Dest()| - 1] == l.destdir;
        match OpenWrite(fs2, l.Dest(), DataFile(data))
        case Failed(e, fs3) => Outcome(ServerError(e), fs3)
        case Done(fs3) => Outcome(Ok(OkBody), fs3)
  }

  /**
   * The whole handler: validation, then, only for an accepted request, the
   * commit. When base directory and project are both empty, `destdir` is the
   * empty path text: `os.path.isdir('')` is false and `os.makedirs('')`
   * raises `ENOENT` before creating anything.
   */
  function Upload(cfg: Config, sha: Hasher, req: Request, fs: Fs): (o: Outcome)
    ensures o.response.Rejected? <==> Validate(cfg, sha, req).Failure?
    ensures o.response.Rejected? ==> o.fs == fs && o.response.reason == Validate(cfg, sha, req).error
    ensures o.response.Ok? ==> DestDirText(cfg, Validate(cfg, sha, req).value.project) != ""
  {
    match Validate(cfg, sha, req)
    case Failure(reason) => Outcome(Rejected(reason), fs)
    case Success(plan) =>
      if DestDirText(cfg, plan.project) == "" then Outcome(ServerError(NoSuchEntry([])), fs)
      else Commit(PlanLayout(cfg, plan), plan.checksumLine, plan.data, fs)
  }
}

=== FILE: filesystem.dfy ===
/**
 * The part of a POSIX filesystem the upload handler touches: directories and
 * regular files addressed by resolved paths, `os.path.isdir`, `os.makedirs`
 * and `open(path, 'w')`. The root (the empty path) always exists and is a
 * directory; it is not stored in the map.
 */
module Filesystem {
  import opened Basics
  import opened Paths

  /** A file written in text mode holds characters; one written from raw data holds bytes. */
  datatype Node = Dir | TextFile(text: string) | DataFile(data: Bytes)

  type Fs = map<Path, Node>

  predicate Exists(fs: Fs, p: Path) {
    p == [] || p in fs
  }

  /** `os.path.isdir`. */
  predicate IsDir(fs: Fs, p: Path) {
    p == [] || (p in fs && fs[p].Dir?)
  }

  /** Every entry sits inside a directory, as on any real filesystem. */
  predicate WellFormed(fs: Fs) {
    forall p :: p in fs ==> |p| > 0 && IsDir(fs, p[..|p| - 1])
  }

  /** No prefix of `p` that exists is anything but a directory. */
  predicate NoFileOnPath(fs: Fs, p: Path) {
    forall i :: 0 <= i <= |p| ==> Exists(fs, p[..i]) ==> IsDir(fs, p[..i])
  }

  /** The `OSError`s the modelled calls raise. */
  datatype FsError =
    | FileExists(path: Path)          // mkdir of an existing entry
    | ParentNotDirectory(path: Path)  // the containing entry is missing or a file
    | IsADirectory(path: Path)        // open for writing of a directory
    | NoSuchEntry(path: Path)         // the empty path text, which names nothing

  /** The filesystem after a call, and the error it raised, if any. */
  datatype Attempt = Done(fs: Fs) | Failed(error: FsError, fs: Fs)

  /** `os.mkdir`. */
  function MkDir(fs: Fs, p: Path): Attempt {
    if Exists(fs, p) then Failed(FileExists(p), fs)
    else if !IsDir(fs, p[..|p| - 1]) then Failed(ParentNotDirectory(p), fs)
    else Done(fs[p := Dir])
  }

  /** `q` is `p` or one of its ancestors below the root. */
  predicate IsPrefixPath(q: Path, p: Path) {
    0 < |q| <= |p| && q == p[..|q|]
  }

  /**
   * `os.makedirs`: create the missing ancestors top-down, then `p` itself.
   * The recursive call's `EEXIST` tolerance is not modelled: that call only
   * happens when the ancestor is missing, and nothing else creates it.
   */
  function MakeDirs(fs: Fs, p: Path): (r: Attempt)
    ensures forall q :: q in fs ==> q in r.fs && r.fs[q] == fs[q]
    ensures forall q :: q in r.fs && q !in fs ==> r.fs[q] == Dir && IsPrefixPath(q, p)
    ensures r.Done? ==> IsDir(r.fs, p)
    decreases |p|
  {
    if p == [] then MkDir(fs, p)
    else
      var head := p[..|p| - 1];
      if head != [] && !Exists(fs, head) then
        match MakeDirs(fs, head)
        case Failed(e, fs1) => Failed(e, fs1)
        case Done(fs1) => MkDir(fs1, p)
      else MkDir(fs, p)
  }

  /**
   * `open(p, 'w')` followed by a write: the entry at `p` now holds exactly
   * `node`, whatever it held before, and nothing else changes; on failure
   * nothing changes at all.
   */
  function OpenWrite(fs: Fs, p: Path, node: Node): (r: Attempt)
    ensures r.Done? ==> p in r.fs && r.fs[p] == node && r.fs - {p} == fs - {p}
    ensures r.Done? <==> !IsDir(fs, p) && IsDir(fs, p[..|p| - 1])
    ensures r.Failed? ==> r.fs == fs
    ensures WellFormed(fs) ==> WellFormed(r.fs)
  {
    if IsDir(fs, p) then Failed(IsADirectory(p), fs)
    else if !IsDir(fs, p[..|p| - 1]) then Failed(ParentNotDirectory(p), fs)
    else Done(fs[p := node])
  }

  /** In a well-formed filesystem every ancestor of an existing entry is a directory. */
  lemma {:induction false} AncestorsAreDirs(fs: Fs, q: Path)
    requires WellFormed(fs)
    requires Exists(fs, q)
    ensures forall i :: 0 <= i < |q| ==> IsDir(fs, q[..i])
    decreases |q|
  {
    if |q| > 0 {
      var head := q[..|q| - 1];
      AncestorsAreDirs(fs, head);
      forall i | 0 <= i < |q|
        ensures IsDir(fs, q[..i])
      {
        if i < |head| {
          assert q[..i] == head[..i];
        }
      }
    }
  }

  /** `os.mkdir` keeps a well-formed filesystem well-formed. */
  lemma MkDirWellFormed(fs: Fs, p: Path)
    requires WellFormed(fs)
    ensures WellFormed(MkDir(fs, p).fs)
  {
  }

  /**
   * `os.makedirs` on a well-formed filesystem keeps it well-formed and, when
   * it raises, has changed nothing.
   */
  lemma {:induction false} MakeDirsWellFormed(fs: Fs, p: Path)
    requires WellFormed(fs)
    ensures WellFormed(MakeDirs(fs, p).fs)
    ensures MakeDirs(fs, p).Failed? ==> MakeDirs(fs, p).fs == fs
    decreases |p|
  {
    var r := MakeDirs(fs, p);
    if p == [] {
      assert r == Failed(FileExists(p), fs);
    } else {
      var head := p[..|p| - 1];
      if head != [] && !Exists(fs, head) {
        MakeDirsWellFormed(fs, head);
        var r1 := MakeDirs(fs, head);
        if r1.Done? {
          assert r == MkDir(r1.fs, p);
          MkDirWellFormed(r1.fs, p);
          assert p !in fs;
          assert p !in r1.fs;
          assert IsDir(r1.fs, head);
          assert r.Done?;
        } else {
          assert r == r1;
        }
      } else {
        assert r == MkDir(fs, p);
        MkDirWellFormed(fs, p);
      }
    }
  }

  /** Extending a path by one entry adds one condition to `NoFileOnPath`. */
  lemma NoFileOnPathStep(fs: Fs, p: Path)
    requires p != []
    ensures NoFileOnPath(fs, p) <==>
              NoFileOnPath(fs, p[..|p| - 1]) && (Exists(fs, p) ==> IsDir(fs, p))
  {
    var head := p[..|p| - 1];
    assert forall i :: 0 <= i <= |head| ==> p[..i] == head[..i];
    assert p[..|p|] == p;
  }

  /** For an existing entry of a well-formed filesystem, `NoFileOnPath` says only that it is a directory. */
  lemma NoFileOnExistingPath(fs: Fs, p: Path)
    requires WellFormed(fs)
    requires Exists(fs, p)
    ensures NoFileOnPath(fs, p) <==> IsDir(fs, p)
  {
    AncestorsAreDirs(fs, p);
    assert p[..|p|] == p;
  }

  /**
   * On a well-formed filesystem `os.makedirs` raises exactly when `p`
   * already exists or one of its ancestors is a file.
   */
  lemma {:induction false} MakeDirsSucceeds(fs: Fs, p: Path)
    requires WellFormed(fs)
    ensures MakeDirs(fs, p).Done? <==> !Exists(fs, p) && NoFileOnPath(fs, p)
    decreases |p|
  {
    var r := MakeDirs(fs, p);
    if p != [] {
      var head := p[..|p| - 1];
      NoFileOnPathStep(fs, p);
      if head != [] && !Exists(fs, head) {
        MakeDirsSucceeds(fs, head);
        MakeDirsWellFormed(fs, head);
        var r1 := MakeDirs(fs, head);
        assert p !in fs;
        if r1.Done? {
          assert r == MkDir(r1.fs, p);
          assert p !in r1.fs;
          assert IsDir(r1.fs, head);
        } else {
          assert r == r1;
        }
      } else {
        assert r == MkDir(fs, p);
        NoFileOnExistingPath(fs, head);
      }
    }
  }
}

=== FILE: paths.dfy ===
/**
 * POSIX path text as the upload handler builds it with `os.path.join` and
 * `'%s.sha512' % dest`, and the directory entries such text names once the
 * operating system resolves it: the non-empty pieces between slashes.
 */
module Paths {

  /** A resolved location: the names of its entries, from the root down. */
  type Path = seq<string>

  const Separator: char := '/'

  /** `posixpath.join(a, b)`: an absolute `b` replaces `a`; otherwise one slash joins them. */
  function Join(a: string, b: string): string {
    if |b| > 0 && b[0] == Separator then b
    else if |a| == 0 || a[|a| - 1] == Separator then a + b
    else a + [Separator] + b
  }

  /** `posixpath.join` gives the empty path text only for two empty arguments. */
  lemma JoinEmpty(a: string, b: string)
    ensures Join(a, b) == "" <==> a == "" && b == ""
  {
  }

  /** A single entry name: non-empty and free of separators. */
  predicate IsName(x: string) {
    |x| > 0 && Separator !in x
  }

  /** The entry list contributed by a finished name: nothing when it is empty. */
  function Close(name: string): Path {
    if |name| == 0 then [] else [name]
  }

  /**
   * Resolves `s` left to right, `name` holding the characters of the name
   * read so far; a slash ends the current name.
   */
  function SegmentsFrom(s: string, name: string): Path
    decreases |s|
  {
    if |s| == 0 then Close(name)
    else if s[0] == Separator then Close(name) + SegmentsFrom(s[1..], [])
    else SegmentsFrom(s[1..], name + [s[0]])
  }

  /** The entries a path text names: repeated, leading and trailing slashes add nothing. */
  function Segments(s: string): Path {
    SegmentsFrom(s, [])
  }

  lemma {:induction false} SegmentsFromName(x: string, name: string)
    requires Separator !in x
    requires |name + x| > 0
    ensures SegmentsFrom(x, name) == [name + x]
    decreases |x|
  {
    if |x| > 0 {
      assert Separator !in x[1..] by {
        assert forall c :: c in x[1..] ==> c in x;
      }
      assert name + [x[0]] + x[1..] == name + x;
      SegmentsFromName(x[1..], name + [x[0]]);
    } else {
      assert name + x == name;
    }
  }

  lemma SegmentsOfName(x: string)
    requires IsName(x)
    ensures Segments(x) == [x]
  {
    SegmentsFromName(x, []);
    assert [] + x == x;
  }

  /** Resolving a text made of two texts joined by a slash resolves each half. */
  lemma {:induction false} SegmentsFromAroundSeparator(a: string, b: string, name: string)
    ensures SegmentsFrom(a + [Separator] + b, name) == SegmentsFrom(a, name) + Segments(b)
    decreases |a|
  {
    var s := a + [Separator] + b;
    if |a| == 0 {
      assert s[0] == Separator && s[1..] == b;
    } else {
      assert s[0] == a[0];
      assert s[1..] == a[1..] + [Separator] + b;
      if a[0] == Separator {
        SegmentsFromAroundSeparator(a[1..], b, []);
      } else {
        SegmentsFromAroundSeparator(a[1..], b, name + [a[0]]);
      }
    }
  }

  lemma SegmentsAroundSeparator(a: string, b: string)
    ensures Segments(a + [Separator] + b) == Segments(a) + Segments(b)
  {
    SegmentsFromAroundSeparator(a, b, []);
  }

  /**
   * Joining a single name onto a directory text names the entry of that name
   * inside the directory. This is why a file name without separators is
   * stored as an immediate child of the destination directory.
   */
  lemma JoinName(dir: string, x: string)
    requires IsName(x)
    ensures Segments(Join(dir, x)) == Segments(dir) + [x]
  {
    SegmentsOfName(x);
    if |dir| == 0 {
      assert Join(dir, x) == x;
    } else if dir[|dir| - 1] == Separator {
      var d := dir[..|dir| - 1];
      TrailingSeparator(dir);
      assert Join(dir, x) == d + [Separator] + x;
      SegmentsAroundSeparator(d, x);
    } else {
      SegmentsAroundSeparator(dir, x);
    }
  }

  /**
   * Appending a separator-free suffix to a joined name, as `'%s.sha512' % dest`
   * does, names the sibling entry whose name carries that suffix.
   */
  lemma JoinNameWithSuffix(dir: string, x: string, suffix: string)
    requires IsName(x)
    requires Separator !in suffix
    ensures Segments(Join(dir, x) + suffix) == Segments(dir) + [x + suffix]
  {
    assert Join(dir, x) + suffix == Join(dir, x + suffix);
    JoinName(dir, x + suffix);
  }

  /** Joining a relative text onto a directory text resolves below that directory. */
  lemma JoinRelative(dir: string, b: string)
    requires |b| == 0 || b[0] != Separator
    ensures Segments(Join(dir, b)) == Segments(dir) + Segments(b)
  {
    if |dir| == 0 {
      assert Join(dir, b) == b;
    } else if dir[|dir| - 1] == Separator {
      var d := dir[..|dir| - 1];
      TrailingSeparator(dir);
      calc {
        Segments(Join(dir, b));
        { assert Join(dir, b) == d + [Separator] + b; }
        Segments(d + [Separator] + b);
        { SegmentsAroundSeparator(d, b); }
        Segments(d) + Segments(b);
      }
    } else {
      SegmentsAroundSeparator(dir, b);
    }
  }

  /** A trailing slash names the same directory. */
  lemma TrailingSeparator(dir: string)
    requires |dir| > 0 && dir[|dir| - 1] == Separator
    ensures Segments(dir) == Segments(dir[..|dir| - 1])
  {
    var d := dir[..|dir| - 1];
    assert dir == d + [Separator] + [];
    SegmentsAroundSeparator(d, []);
  }
}

=== FILE: upload_properties.dfy ===
/**
 * Properties of the upload handler that relate several calls or that speak
 * of the whole request rather than of one step.
 */
module UploadProperties {
  import opened Basics
  import opened ChecksumLine
  import opened Paths
  import opened Filesystem
  import opened DistfilesApi

  /**
   * Whatever a commit ends in, an entry other than the two files keeps its
   * contents, and every entry it adds is one of the two files or a
   * directory on the way to `destdir`.
   */
  lemma CommitFrame(l: Layout, checksumLine: string, data: Bytes, fs: Fs)
    requires l.payloadName != l.sidecarName
    ensures var o := Commit(l, checksumLine, data, fs);
            forall q :: q in fs && q != l.Dest() && q != l.Sidecar() ==> q in o.fs && o.fs[q] == fs[q]
    ensures var o := Commit(l, checksumLine, data, fs);
            forall q :: q in o.fs && q !in fs ==>
              q == l.Dest() || q == l.Sidecar() || (o.fs[q] == Dir && IsPrefixPath(q, l.destdir))
  {
    var o := Commit(l, checksumLine, data, fs);
    var made := EnsureDir(fs, l.destdir);
    if made.Done? {
      var w1 := OpenWrite(made.fs, l.Sidecar(), TextFile(checksumLine));
      if w1.Done? {
        var w2 := OpenWrite(w1.fs, l.Dest(), DataFile(data));
        assert o.fs == w2.fs;
        forall q | q != l.Dest() && q != l.Sidecar()
          ensures (q in o.fs <==> q in made.fs) && (q in o.fs ==> o.fs[q] == made.fs[q])
        {
          assert q in w2.fs - {l.Dest()} <==> q in w1.fs - {l.Dest()};
          assert q in w1.fs - {l.Sidecar()} <==> q in made.fs - {l.Sidecar()};
        }
      } else {
        assert o.fs == made.fs;
      }
    } else {
      assert o.fs == made.fs;
    }
  }

  /** A commit onto a filesystem that already holds its directory and both files changes nothing. */
  lemma CommitOntoStored(l: Layout, checksumLine: string, data: Bytes, fs: Fs)
    requires l.payloadName != l.sidecarName
    requires IsDir(fs, l.destdir)
    requires l.Sidecar() in fs && fs[l.Sidecar()] == TextFile(checksumLine)
    requires l.Dest() in fs && fs[l.Dest()] == DataFile(data)
    ensures Commit(l, checksumLine, data, fs) == Outcome(Ok(OkBody), fs)
  {
    assert l.Sidecar()[..|l.Sidecar()| - 1] == l.destdir;
    assert l.Dest()[..|l.Dest()| - 1] == l.destdir;
    assert fs[l.Sidecar() := TextFile(checksumLine)] == fs;
    assert fs[l.Dest() := DataFile(data)] == fs;
  }

  /** Committing the same files onto the result of a successful commit changes nothing. */
  lemma CommitIdempotent(l: Layout, checksumLine: string, data: Bytes, fs: Fs)
    requires l.payloadName != l.sidecarName
    requires Commit(l, checksumLine, data, fs).response.Ok?
    ensures Commit(l, checksumLine, data, Commit(l, checksumLine, data, fs).fs)
            == Commit(l, checksumLine, data, fs)
  {
    var o := Commit(l, checksumLine, data, fs);
    CommitOntoStored(l, checksumLine, data, o.fs);
  }

  /**
   * On a well-formed filesystem a commit succeeds exactly when no ancestor
   * of `destdir` is a file and neither file location is a directory;
   * otherwise a filesystem call raises.
   */
  lemma CommitSucceeds(l: Layout, checksumLine: string, data: Bytes, fs: Fs)
    requires l.payloadName != l.sidecarName
    requires WellFormed(fs)
    ensures Commit(l, checksumLine, data, fs).response.Ok? <==>
              NoFileOnPath(fs, l.destdir) && !IsDir(fs, l.Sidecar()) && !IsDir(fs, l.Dest())
  {
    var dest, sidecar := l.Dest(), l.Sidecar();
    MakeDirsSucceeds(fs, l.destdir);
    if IsDir(fs, l.destdir) {
      NoFileOnExistingPath(fs, l.destdir);
    }
    var made := EnsureDir(fs, l.destdir);
    assert l.destdir[..|l.destdir|] == l.destdir;
    if made.Done? {
      assert !IsPrefixPath(sidecar, l.destdir) && !IsPrefixPath(dest, l.destdir);
      assert sidecar !in fs ==> sidecar !in made.fs;
      assert dest !in fs ==> dest !in made.fs;
      assert IsDir(made.fs, sidecar) <==> IsDir(fs, sidecar);
      assert IsDir(made.fs, dest) <==> IsDir(fs, dest);
      assert sidecar[..|sidecar| - 1] == l.destdir;
      assert dest[..|dest| - 1] == l.destdir;
      var w1 := OpenWrite(made.fs, sidecar, TextFile(checksumLine));
      if w1.Done? {
        assert IsDir(w1.fs, l.destdir);
        assert dest in w1.fs <==> dest in made.fs by {
          assert dest in w1.fs - {sidecar} <==> dest in made.fs - {sidecar};
        }
        assert IsDir(w1.fs, dest) <==> IsDir(made.fs, dest);
      }
    }
  }

  /**
   * A request is rejected exactly when validation fails, with the failing
   * guard's status, and a rejected request leaves the filesystem as it was.
   */
  lemma RejectionHasNoEffect(cfg: Config, sha: Hasher, req: Request, fs: Fs)
    ensures var o := Upload(cfg, sha, req, fs);
            o.response.Rejected? <==> Validate(cfg, sha, req).Failure?
    ensures var o := Upload(cfg, sha, req, fs);
            o.response.Rejected? ==>
              && o.fs == fs
              && o.response.reason == Validate(cfg, sha, req).error
              && StatusCode(o.response) in {400, 401}
  {
  }

  /** The layout of an accepted request. */
  function RequestLayout(cfg: Config, sha: Hasher, req: Request): Layout
    requires Validate(cfg, sha, req).Success?
  {
    PlanLayout(cfg, Validate(cfg, sha, req).value)
  }

  /**
   * After a successful upload the path text `os.path.join(destdir,
   * filename)` names a file holding exactly the uploaded bytes, that text
   * with `.sha512` appended names a file holding the whole `sha512` field
   * verbatim (text past the matched part included), both sit directly
   * inside `destdir`, which is a directory, and the answer is `OK` with
   * status 200.
   */
  lemma SuccessStoresRequest(cfg: Config, sha: Hasher, req: Request, fs: Fs)
    ensures Upload(cfg, sha, req, fs).response.Ok? ==>
            "project" in req.form && "sha512" in req.form && "file" in req.files
    ensures Upload(cfg, sha, req, fs).response.Ok? ==>
            var o := Upload(cfg, sha, req, fs);
            var project, f := req.form["project"], req.files["file"];
            var destdir := Segments(DestDirText(cfg, project));
            var dest := Segments(Join(DestDirText(cfg, project), f.filename));
            var sidecar := Segments(Join(DestDirText(cfg, project), f.filename) + ChecksumSuffix);
            && StatusCode(o.response) == 200
            && o.response.body == OkBody
            && IsDir(o.fs, destdir)
            && dest == destdir + [f.filename]
            && sidecar == destdir + [f.filename + ChecksumSuffix]
            && dest in o.fs && o.fs[dest] == DataFile(f.data)
            && sidecar in o.fs && o.fs[sidecar] == TextFile(req.form["sha512"])
  {
    if Upload(cfg, sha, req, fs).response.Ok? {
      var plan := Validate(cfg, sha, req).value;
      JoinName(DestDirText(cfg, plan.project), plan.filename);
      JoinNameWithSuffix(DestDirText(cfg, plan.project), plan.filename, ChecksumSuffix);
    }
  }

  /**
   * A successful upload changes nothing but the payload file, the sidecar
   * and the directories leading to `destdir`, which it only ever adds.
   */
  lemma SuccessChangesOnlyDestination(cfg: Config, sha: Hasher, req: Request, fs: Fs)
    ensures Upload(cfg, sha, req, fs).response.Ok? ==> Validate(cfg, sha, req).Success?
    ensures Upload(cfg, sha, req, fs).response.Ok? ==>
            var o, l := Upload(cfg, sha, req, fs), RequestLayout(cfg, sha, req);
            forall q :: q in fs && q != l.Dest() && q != l.Sidecar() ==> q in o.fs && o.fs[q] == fs[q]
    ensures Upload(cfg, sha, req, fs).response.Ok? ==>
            var o, l := Upload(cfg, sha, req, fs), RequestLayout(cfg, sha, req);
            forall q :: q in o.fs && q !in fs ==>
              q == l.Dest() || q == l.Sidecar() || (o.fs[q] == Dir && IsPrefixPath(q, l.destdir))
  {
    if Upload(cfg, sha, req, fs).response.Ok? {
      var plan := Validate(cfg, sha, req).value;
      CommitFrame(PlanLayout(cfg, plan), plan.checksumLine, plan.data, fs);
    }
  }

  /**
   * Sending the same accepted request again succeeds again and leaves the
   * filesystem exactly as the first time: the directory is already there
   * and both files are overwritten with what they hold.
   */
  lemma UploadIdempotent(cfg: Config, sha: Hasher, req: Request, fs: Fs)
    ensures var o := Upload(cfg, sha, req, fs);
            o.response.Ok? ==> Upload(cfg, sha, req, o.fs) == o
  {
    if Upload(cfg, sha, req, fs).response.Ok? {
      var plan := Validate(cfg, sha, req).value;
      CommitIdempotent(PlanLayout(cfg, plan), plan.checksumLine, plan.data, fs);
    }
  }

  /** The handler never leaves a well-formed filesystem ill-formed, whatever it answers. */
  lemma UploadPreservesWellFormed(cfg: Config, sha: Hasher, req: Request, fs: Fs)
    requires WellFormed(fs)
    ensures WellFormed(Upload(cfg, sha, req, fs).fs)
  {
    var v := Validate(cfg, sha, req);
    if v.Success? {
      var l := PlanLayout(cfg, v.value);
      if !IsDir(fs, l.destdir) {
        MakeDirsWellFormed(fs, l.destdir);
      }
    }
  }

  /**
   * An accepted request whose destination path text is empty (an empty base
   * directory and an empty project) fails with a server error and changes
   * nothing: `os.makedirs('')` raises before creating anything.
   */
  lemma EmptyDestinationFails(cfg: Config, sha: Hasher, req: Request, fs: Fs)
    requires Validate(cfg, sha, req).Success?
    ensures "project" in req.form
    ensures DestDirText(cfg, req.form["project"]) == "" <==> cfg.basedir == "" && req.form["project"] == ""
    ensures cfg.basedir == "" && req.form["project"] == "" ==>
              Upload(cfg, sha, req, fs) == Outcome(ServerError(NoSuchEntry([])), fs)
  {
    JoinEmpty(cfg.basedir, req.form["project"]);
  }

  /**
   * On a well-formed filesystem an accepted request is stored exactly when
   * its destination path text is non-empty, no ancestor of `destdir` is a
   * file and neither file location is a directory; any other outcome is a
   * server error.
   */
  lemma UploadSucceeds(cfg: Config, sha: Hasher, req: Request, fs: Fs)
    requires WellFormed(fs)
    requires Validate(cfg, sha, req).Success?
    ensures var l := RequestLayout(cfg, sha, req);
            Upload(cfg, sha, req, fs).response.Ok? <==>
              && DestDirText(cfg, Validate(cfg, sha, req).value.project) != ""
              && NoFileOnPath(fs, l.destdir) && !IsDir(fs, l.Sidecar()) && !IsDir(fs, l.Dest())
    ensures !Upload(cfg, sha, req, fs).response.Ok? ==> Upload(cfg, sha, req, fs).response.ServerError?
  {
    var plan := Validate(cfg, sha, req).value;
    if DestDirText(cfg, plan.project) != "" {
      CommitSucceeds(PlanLayout(cfg, plan), plan.checksumLine, plan.data, fs);
    }
  }

  /** Only the user name of the credentials is compared; the password is never read. */
  lemma PasswordIgnored(cfg: Config, sha: Hasher, req: Request, fs: Fs, password: string)
    requires req.authorization.Some?
    ensures var other := req.(authorization := Some(req.authorization.value.(password := password)));
            Upload(cfg, sha, other, fs) == Upload(cfg, sha, req, fs)
  {
  }

  /** A missing header and a wrong user name are both answered 401 without touching the filesystem. */
  lemma CredentialsChecked(cfg: Config, sha: Hasher, req: Request, fs: Fs)
    requires req.authorization.None? || req.authorization.value.username != cfg.authToken
    ensures Upload(cfg, sha, req, fs) == Outcome(Rejected(if req.authorization.None? then NoAuth else BadAuth), fs)
    ensures StatusCode(Upload(cfg, sha, req, fs).response) == 401
  {
  }

  /** An authenticated request without a `file` part is refused for that, whatever its form fields. */
  lemma FileCheckedBeforeForm(cfg: Config, sha: Hasher, req: Request, fs: Fs)
    requires req.authorization.Some? && req.authorization.value.username == cfg.authToken
    requires "file" !in req.files
    ensures Upload(cfg, sha, req, fs) == Outcome(Rejected(NoFile), fs)
  {
  }

  /** The `version` field is neither required nor used. */
  lemma VersionNotRequired(cfg: Config, sha: Hasher, req: Request, fs: Fs)
    ensures Upload(cfg, sha, req.(form := req.form - {"version"}), fs) == Upload(cfg, sha, req, fs)
  {
    var other := req.(form := req.form - {"version"});
    assert "project" in other.form <==> "project" in req.form;
    assert "sha512" in other.form <==> "sha512" in req.form;
  }

  /** The guards before the checksum-line check all pass. */
  predicate ReachesChecksumCheck(cfg: Config, req: Request) {
    && req.authorization.Some?
    && req.authorization.value.username == cfg.authToken
    && "file" in req.files
    && "project" in req.form
    && "sha512" in req.form
  }

  /**
   * A value too short to hold digest, space, flag and a name (such as
   * `123`), or one whose digest uses an upper-case hex digit, is refused as
   * a malformed checksum line.
   */
  lemma MalformedChecksumRejected(cfg: Config, sha: Hasher, req: Request, fs: Fs, i: nat)
    requires ReachesChecksumCheck(cfg, req)
    requires var line := req.form["sha512"];
             |line| <= DigestLength + 2 || (i < DigestLength && 'A' <= line[i] <= 'F')
    ensures Upload(cfg, sha, req, fs) == Outcome(Rejected(BadChecksumLine), fs)
    ensures StatusCode(Upload(cfg, sha, req, fs).response) == 400
  {
    var line := req.form["sha512"];
    if |line| > DigestLength + 2 {
      assert line[..DigestLength][i] == line[i];
    }
  }

  /**
   * The length guard runs before the separator guard: a short name is
   * refused for its length even when it also contains a separator.
   */
  lemma ShortNameRejectedForLength(cfg: Config, sha: Hasher, req: Request, fs: Fs)
    requires ReachesChecksumCheck(cfg, req)
    requires IsChecksumLine(req.form["sha512"])
    requires |req.files["file"].filename| < MinFilenameLength
    ensures Upload(cfg, sha, req, fs) == Outcome(Rejected(FilenameTooShort), fs)
  {
  }

  /**
   * Acceptance requires the digest captured from the checksum line to equal
   * the payload's digest exactly; a request that passes every other guard
   * but differs there is refused with 400.
   */
  lemma DigestDecides(cfg: Config, sha: Hasher, req: Request, fs: Fs)
    requires ReachesChecksumCheck(cfg, req)
    requires IsChecksumLine(req.form["sha512"])
    requires IsUploadName(req.files["file"].filename)
    ensures Upload(cfg, sha, req, fs).response.Rejected? <==>
              Parse(req.form["sha512"]).value.digest != sha(req.files["file"].data)
    ensures Upload(cfg, sha, req, fs).response.Rejected? ==>
              Upload(cfg, sha, req, fs) == Outcome(Rejected(DigestMismatch), fs)
  {
  }

  /**
   * Every payload can be uploaded: a request carrying the configured token,
   * an acceptable file name and the checksum line of the payload's own
   * digest passes validation, with any mode flag and any name in the line.
   */
  lemma EveryPayloadAccepted(cfg: Config, sha: Hasher, data: Bytes, filename: string,
                             project: string, mode: char, lineName: string, password: string)
    requires IsUploadName(filename)
    requires IsModeFlag(mode) && |lineName| > 0 && '\n' !in lineName
    ensures var line := Format(Match(sha(data), mode, lineName));
            var req := Request(Some(Credentials(cfg.authToken, password)),
                               map["file" := FilePart(filename, data)],
                               map["project" := project, "sha512" := line]);
            Validate(cfg, sha, req) == Success(Plan(project, filename, data, line))
  {
    var m := Match(sha(data), mode, lineName);
    ParseFormat(m);
  }
}
